=== FILE: README.md ===
# Knight shortest paths, modelled in Dafny

This project models the algorithmic core of `knight_path.py`, which finds
shortest knight paths between two squares of an N x N chessboard. The core
has three layers:

- `is_valid_move`: the board-bounds check.
- `get_knight_moves`: the move generator. It adds the eight L-shaped
  offsets to a square in a fixed order and keeps the results that are on
  the board.
- `bfs_shortest_path`: a breadth-first search. Each queue item carries the
  whole path taken so far. The search keeps a set of expanded squares. The
  first time the target square is dequeued, that path's length is frozen.
  After that, only paths of exactly that length are collected. The target is
  never expanded, so several paths can reach it. Every other square is
  expanded at most once.

The board size `N` is a parameter. In the source it is fixed to 8 only by
the command-line entry point. The source's `end` square is called `goal`
here. A path's length is its number of squares (`len(path)` in the source),
so a path of `k` moves has length `k + 1`.

Modules, one per concern:

- `board.dfy` (`Board`): squares, the bounds check, the offset table, the
  move generator.
- `walks.dfy` (`Walks`): knight walks (legal move sequences from a start
  square), reachability, and the "no shorter walk" reference predicate
  against which the search result is judged.
- `frontier.dfy` (`Frontier`): the queue item type, the reference filter
  for one expansion step, and the breadth-first invariant with one lemma
  per kind of loop step.
- `provenance.dfy` (`Provenance`): the second invariant. Every queued or
  collected walk is the expansion walk of its second-to-last square plus
  one move. This gives the consequence of "expanded at most once" that can
  be observed in the result.
- `coverage.dfy` (`Coverage`): the third invariant. When an expanded
  square is one knight move from the on-board goal, the walk through which it was
  expanded, plus the goal, is queued. It is collected when dequeued if its
  length is the shortest. So every square from which a shortest walk makes
  its last move appears as a second-to-last square in the result.
- `search.dfy` (`Search`): the search itself, as a `while` loop over a
  `seq` queue and a `set` of expanded squares, and the expansion step that
  appends to the queue.

How the search is proved:

- Ghost map `depth`: records the walk length at which each square was
  expanded. The invariant shows this length is minimal among walks that do
  not pass through the goal first.
- Layered queue: lengths never decrease from head to tail and span at most
  two adjacent values.
- Closed frontier: every unexpanded on-board neighbour of an expanded square
  is queued at most one step further, or is the goal and the goal has
  already been reached.
- Minimality and completeness both follow from these three facts (lemma
  `Frontier.Reaches`).
- Coverage: for every expanded square one knight move from the goal, its
  expansion walk plus the goal is still queued, or has been collected, or
  has a length other than the frozen one. With the queue empty, this gives
  a returned path for every last-move square of a shortest walk (lemma
  `Coverage.AllPredecessors`).
- Termination uses the measure (unexpanded squares of the board plus
  `start`, queue length). The queue can grow, but each expansion removes one
  square from the first component.

## Model

| member | source | states |
|---|---|---|
| `Board.IsValidMove` | knight_path.py:5-17 | no square passes the bounds check when the board size is zero or negative |
| `Board.ValidMoveIsCell` | knight_path.py:17 | the bounds check accepts exactly the squares of the board: those with 0 <= x < N and 0 <= y < N |
| `Board.KnightStepIsOffset` | knight_path.py:31-36 | a knight move (one coordinate changes by one, the other by two) is exactly a difference listed among the eight offsets the generator tries |
| `Board.MovesFromLength` | knight_path.py:31-37 | filtering candidates from position k onward yields at most 8 - k squares |
| `Board.MovesFromMembers` | knight_path.py:31-37 | a square survives the filter exactly when it is a knight move away, its offset is at position k or later, and it is on the board |
| `Board.MovesFromRanked` | knight_path.py:31-37 | every square the filter keeps from position k onward has offset position k or later |
| `Board.MovesFromOrdered` | knight_path.py:31-37 | the filter output keeps the offsets' listed order: the offset positions of the kept squares strictly increase |
| `Board.KnightMoves` | knight_path.py:19-37 | returns at most 8 squares; a square is returned exactly when it is on the board and one knight move away, in the textbook sense that one coordinate changes by one and the other by two; the list follows the fixed offset order and has no duplicates |
| `Board.CornerMoves` | knight_path.py:31-37 | from corner (0, 0) of an 8 x 8 board the moves are exactly (2, 1) then (1, 2) |
| `Walks.EmptyBoardUnreachable` | knight_path.py:17 | with N <= 0 no knight walk leads from start to a different square, since every move lands off the board |
| `Walks.TrimAtGoal` | knight_path.py:58-60 | any walk to the goal can be cut at its first visit to the goal, giving a walk that is no longer and does not pass the goal earlier |
| `Frontier.UnexpandedMembers` | knight_path.py:69-71 | the reference filter keeps a move exactly when it is listed and not yet expanded |
| `Frontier.UnexpandedDistinct` | knight_path.py:69-71 | filtering a move list without repeats gives a list without repeats |
| `Search.Successors` | knight_path.py:69-71 | the appended items correspond one to one, in the move generator's order, to the listed moves not yet expanded; each item is the current path extended by its move |
| `Search.Expand` | knight_path.py:67-71 | expanding a square generates exactly the list the move generator returns (its on-board knight moves in offset order); the queued items are, in the generator's order, the path extended by each of those moves that is not yet expanded; every such move gets an item; no two items end on the same square |
| `Frontier.InitInv` | knight_path.py:51-54 | the starting state (queue holding the one-square walk at start, nothing expanded, nothing collected, no frozen length) satisfies the search invariant |
| `Frontier.HeadShortest` | knight_path.py:57 | in a layered queue the dequeued head is no longer than any queued walk |
| `Frontier.DequeueTail` | knight_path.py:57 | removing the head leaves a queue whose items are still simple walks from start and whose lengths are still layered |
| `Frontier.DequeueClosed` | knight_path.py:57-66 | removing a head that ends on an expanded square, or on the goal once it counts as reached, keeps the frontier closed |
| `Frontier.FirstArrival` | knight_path.py:58-60 | the first walk dequeued at the goal has a length no walk from start to the goal beats |
| `Frontier.Reaches` | knight_path.py:56-71 | any walk from start that avoids the goal before its end and ends on an unexpanded square is matched by a queued walk no longer than it, unless it ends on the goal and the goal was already reached |
| `Frontier.ReachesOrExpanded` | knight_path.py:56-71 | any walk from start that avoids the goal before its end ends on an expanded square, or is matched by a queued walk no longer than it, or ends on the goal after the goal was reached |
| `Frontier.StepGoal` | knight_path.py:58-63 | dequeuing the goal keeps the invariant: the first arrival freezes a length that no walk to the goal beats, and only walks of that length are collected |
| `Frontier.GoalResults` | knight_path.py:59-62 | collecting a goal walk whose length equals the frozen length keeps every collected path a simple walk to the goal of that one minimal length; a longer walk is dropped |
| `Frontier.StepSkip` | knight_path.py:65-66 | discarding a walk to an already expanded square keeps the invariant |
| `Frontier.ExpandEntries` | knight_path.py:67-71 | after expansion every queued item is still a simple walk from start, and all its squares except the last have been expanded |
| `Frontier.ExpandLayered` | knight_path.py:69-71 | appending walks one longer than the head keeps queue lengths sorted and within one of the head |
| `Frontier.ExpandNearest` | knight_path.py:65-67 | the walk through which a square is first expanded is a shortest walk to it among walks that avoid the goal |
| `Frontier.ExpandClosed` | knight_path.py:67-71 | after expansion every unexpanded on-board neighbour of an expanded square is queued with a walk at most one longer than that square's |
| `Frontier.ExpandStart` | knight_path.py:67 | start stays covered: it is either expanded or still queued with its one-square walk |
| `Frontier.StepExpand` | knight_path.py:65-71 | expanding a fresh non-goal square keeps the whole search invariant |
| `Frontier.Finish` | knight_path.py:56-73 | with the queue empty, the collected paths are simple walks from start to goal of one common length that no walk beats; there are none exactly when the goal is unreachable; start == goal gives exactly [[start]] |
| `Provenance.InitLineage` | knight_path.py:51 | the initial queue satisfies the provenance invariant |
| `Provenance.GoalLineage` | knight_path.py:58-63 | moving a goal walk to the result, or dropping it, keeps every alive walk unique and derived from its second-to-last square's expansion |
| `Provenance.SkipLineage` | knight_path.py:65-66 | discarding a walk keeps the provenance invariant |
| `Provenance.ExpandLineage` | knight_path.py:65-71 | expansion adds walks that all leave the newly expanded square by distinct moves, and no earlier walk leaves that square, so alive walks stay unique |
| `Provenance.DistinctPredecessors` | knight_path.py:58-71 | collected paths to the goal have pairwise different second-to-last squares |
| `Search.ShortestPaths` | knight_path.py:39-73 | every returned path starts at start, ends at goal, moves by legal on-board knight moves and repeats no square; all have the same length; no knight walk from start to goal is shorter; the result is empty exactly when goal is unreachable; start == goal gives exactly [[start]], even off the board; any two returned paths have different second-to-last squares; every square from which some shortest walk to the goal makes its last move is the second-to-last square of a returned path, so exactly one path is returned per such square |
| `Search.Conclude` | knight_path.py:56-73 | with the queue empty, the loop invariants imply the result promises: simple walks from start to goal of one common, unbeaten length; none exactly when the goal is unreachable; [[start]] when start == goal; pairwise different second-to-last squares; every such last-move square of a shortest walk is represented |
| `Search.GoalStep` | knight_path.py:58-63 | the goal branch keeps all three loop invariants |
| `Search.SkipStep` | knight_path.py:65-66 | the skip branch keeps all three loop invariants |
| `Search.ExpandStep` | knight_path.py:67-71 | the expansion branch keeps all three loop invariants |
| `Search.OnBoard` | knight_path.py:57-67 | a dequeued square is start or on the board, so expanding it shrinks the set of unexpanded squares |
| `Coverage.InitComplete` | knight_path.py:51-53 | the initial state satisfies the coverage invariant |
| `Coverage.GoalComplete` | knight_path.py:58-63 | a dequeued walk via[v] + [goal] is either collected, or dropped because its length differs from the frozen one |
| `Coverage.SkipComplete` | knight_path.py:65-66 | discarding a walk that does not end on the goal keeps coverage |
| `Coverage.ExpandComplete` | knight_path.py:67-71 | expanding a square one knight move from the on-board goal queues its walk plus the goal, since the goal is never expanded |
| `Coverage.ShortestAvoids` | knight_path.py:58-63 | a shortest walk to the goal meets the goal only at its end |
| `Coverage.PenultExpanded` | knight_path.py:65-71 | with the queue empty, the last-move square of a shortest walk was expanded through a walk one square shorter |
| `Coverage.FoundShortest` | knight_path.py:59-60 | with the queue empty and the goal reachable, the frozen length is the shortest walk length |
| `Coverage.AllPredecessors` | knight_path.py:58-71 | with the queue empty, every last-move square of a shortest walk to the goal is the second-to-last square of a collected path |

## Left out

- `format_path` (knight_path.py:75-85) is display formatting only and needs integer-to-text conversion.
- `generate_dot_file` (knight_path.py:87-105) calls the external graphviz library and renders an image file.
- `main` (knight_path.py:107-132) handles argument parsing, integer conversion and printing, and fixes the board size to 8. The model takes the size as a parameter.
- Search.ShortestPaths: the model computes the result in discovery order, as the source does, but no contract describes that order, nor which walk through each such last-move square is returned. The source returns the first walk to that square that is dequeued, extended by the goal (knight_path.py:65-71).
- Search.ShortestPaths: the doc comment at knight_path.py:49 says the result holds all shortest paths. The code does not do that, and the model follows the code. A square is expanded only through the first walk that reaches it (knight_path.py:65-67). The result therefore holds exactly one path per square from which a shortest walk makes its last move, which is what the contract proves. Different shortest paths through the same second-to-last square are not all returned.
- Python's unbounded integers need no wrap-around modelling, and none is modelled. The deque and set become a Dafny `seq` and `set`.
- The move generator returns an ordered list and accepts any board size, including N <= 0.
- For N <= 0 the search still returns [[start]] when start equals the goal.
- An off-board start is accepted without error. When it differs from the goal, it is expanded like any other square.

=== FILE: board.dfy ===
/**
 The board and the knight's move generator: the bounds check on an n x n
 board and the list of legal knight destinations from a square, in the
 fixed order in which the eight L-shaped offsets are tried.
 */
module Board {

  /** A board square as an (x, y) pair of unbounded integer coordinates. */
  type Square = (int, int)

  /** The eight knight offsets, in the order the move generator tries them. */
  const Offsets: seq<(int, int)> :=
    [(2, 1), (2, -1), (-2, 1), (-2, -1), (1, 2), (1, -2), (-1, 2), (-1, -2)]

  /** The squares of an n x n board, as a set; empty when n <= 0. */
  function Cells(n: int): set<Square>
  {
    set x, y | 0 <= x < n && 0 <= y < n :: (x, y)
  }

  /** True when (x, y) lies on the n x n board. */
  function IsValidMove(x: int, y: int, n: int): (b: bool)
    ensures n <= 0 ==> !b
  {
    0 <= x < n && 0 <= y < n
  }

  /** The bounds check accepts exactly the squares of the board. */
  lemma ValidMoveIsCell(x: int, y: int, n: int)
    ensures IsValidMove(x, y, n) <==> (x, y) in Cells(n)
  {
    if IsValidMove(x, y, n) {
      assert (x, y) in Cells(n);
    }
  }

  function Abs(z: int): nat
  {
    if z < 0 then -z else z
  }

  /** True when b is one knight move away from a, in the textbook sense:
      one coordinate changes by one and the other by two. */
  predicate IsKnightStep(a: Square, b: Square)
  {
    var dx := Abs(b.0 - a.0);
    var dy := Abs(b.1 - a.1);
    (dx == 1 && dy == 2) || (dx == 2 && dy == 1)
  }

  /** The eight offsets the generator tries are exactly the knight moves. */
  lemma KnightStepIsOffset(a: Square, b: Square)
    ensures IsKnightStep(a, b) <==> (b.0 - a.0, b.1 - a.1) in Offsets
  {
  }

  /** No offset is listed twice. */
  lemma OffsetsDistinct()
    ensures forall i, j :: 0 <= i < j < |Offsets| ==> Offsets[i] != Offsets[j]
  {
  }

  /** Position of an offset in the generator's order; |Offsets| when it is
      not a knight offset at all. */
  ghost function OffsetIndex(d: (int, int)): nat
  {
    if d in Offsets then var i :| 0 <= i < |Offsets| && Offsets[i] == d; i
    else |Offsets|
  }

  /** OffsetIndex finds d in Offsets exactly when d is a knight offset. */
  lemma OffsetIndexSpec(d: (int, int))
    ensures OffsetIndex(d) <= |Offsets|
    ensures OffsetIndex(d) < |Offsets| ==> Offsets[OffsetIndex(d)] == d
    ensures OffsetIndex(d) == |Offsets| <==> d !in Offsets
  {
  }

  /** The rank of destination s among the moves from (x, y): the position of
      its offset in the generator's order. */
  ghost function Rank(x: int, y: int, s: Square): nat
  {
    OffsetIndex((s.0 - x, s.1 - y))
  }

  /** The k-th candidate destination from (x, y), before the bounds filter. */
  function Candidate(x: int, y: int, k: nat): Square
    requires k < |Offsets|
  {
    (x + Offsets[k].0, y + Offsets[k].1)
  }

  /** The k-th candidate is a knight move away and has rank k. */
  lemma CandidateRank(x: int, y: int, k: nat)
    requires k < |Offsets|
    ensures IsKnightStep((x, y), Candidate(x, y, k))
    ensures Rank(x, y, Candidate(x, y, k)) == k
  {
    assert Offsets[k] in Offsets;
    OffsetsDistinct();
    OffsetIndexSpec(Offsets[k]);
  }

  /** Only one destination from (x, y) has a given rank. */
  lemma RankDetermines(x: int, y: int, k: nat)
    requires k < |Offsets|
    ensures forall s :: IsKnightStep((x, y), s) && Rank(x, y, s) == k ==> s == Candidate(x, y, k)
  {
    forall s | IsKnightStep((x, y), s) && Rank(x, y, s) == k
      ensures s == Candidate(x, y, k)
    {
      CandidateRank(x, y, k);
      OffsetIndexSpec((s.0 - x, s.1 - y));
      assert Offsets[k] == (s.0 - x, s.1 - y);
    }
  }

  /** The on-board candidates from (x, y) whose offsets come at position k or
      later, in the generator's order. */
  function MovesFrom(x: int, y: int, n: int, k: nat): seq<Square>
    requires k <= |Offsets|
    decreases |Offsets| - k
  {
    if k == |Offsets| then []
    else
      var c := Candidate(x, y, k);
      (if IsValidMove(c.0, c.1, n) then [c] else []) + MovesFrom(x, y, n, k + 1)
  }

  lemma {:induction false} MovesFromLength(x: int, y: int, n: int, k: nat)
    requires k <= |Offsets|
    ensures |MovesFrom(x, y, n, k)| <= |Offsets| - k
    decreases |Offsets| - k
  {
    if k < |Offsets| {
      MovesFromLength(x, y, n, k + 1);
    }
  }

  /** MovesFrom keeps exactly the on-board knight destinations of rank k or
      more. */
  lemma {:induction false} MovesFromMembers(x: int, y: int, n: int, k: nat)
    requires k <= |Offsets|
    ensures forall s :: s in MovesFrom(x, y, n, k) <==> IsKnightStep((x, y), s) && k <= Rank(x, y, s) && IsValidMove(s.0, s.1, n)
    decreases |Offsets| - k
  {
    var r := MovesFrom(x, y, n, k);
    if k == |Offsets| {
      forall s | IsKnightStep((x, y), s)
        ensures Rank(x, y, s) < k
      {
        OffsetIndexSpec((s.0 - x, s.1 - y));
      }
    } else {
      var c := Candidate(x, y, k);
      var rest := MovesFrom(x, y, n, k + 1);
      MovesFromMembers(x, y, n, k + 1);
      CandidateRank(x, y, k);
      RankDetermines(x, y, k);
      assert r == (if IsValidMove(c.0, c.1, n) then [c] else []) + rest;
      forall s
        ensures s in r <==> IsKnightStep((x, y), s) && k <= Rank(x, y, s) && IsValidMove(s.0, s.1, n)
      {
        if s == c {
          assert Rank(x, y, s) == k;
        } else {
          assert s in r <==> s in rest;
        }
      }
    }
  }

  /** Every destination MovesFrom lists has rank k or more. */
  lemma {:induction false} MovesFromRanked(x: int, y: int, n: int, k: nat)
    requires k <= |Offsets|
    ensures forall s :: s in MovesFrom(x, y, n, k) ==> k <= Rank(x, y, s)
    decreases |Offsets| - k
  {
    if k < |Offsets| {
      MovesFromRanked(x, y, n, k + 1);
      CandidateRank(x, y, k);
    }
  }

  /** Squares listed in strictly increasing rank from (x, y). */
  ghost predicate RankOrdered(x: int, y: int, r: seq<Square>)
  {
    forall i, j :: 0 <= i < j < |r| ==> Rank(x, y, r[i]) < Rank(x, y, r[j])
  }

  /** Putting a square of lower rank in front of a rank-ordered list keeps
      it rank-ordered. */
  lemma PrependOrdered(x: int, y: int, c: Square, rest: seq<Square>)
    requires RankOrdered(x, y, rest)
    requires forall s :: s in rest ==> Rank(x, y, c) < Rank(x, y, s)
    ensures RankOrdered(x, y, [c] + rest)
  {
    var r := [c] + rest;
    forall i, j | 0 <= i < j < |r|
      ensures Rank(x, y, r[i]) < Rank(x, y, r[j])
    {
      assert r[j] == rest[j - 1];
      assert rest[j - 1] in rest;
      if i > 0 {
        assert r[i] == rest[i - 1];
      }
    }
  }

  /** MovesFrom lists its destinations in strictly increasing rank. */
  lemma {:induction false} MovesFromOrdered(x: int, y: int, n: int, k: nat)
    requires k <= |Offsets|
    ensures RankOrdered(x, y, MovesFrom(x, y, n, k))
    decreases |Offsets| - k
  {
    if k < |Offsets| {
      var c := Candidate(x, y, k);
      var rest := MovesFrom(x, y, n, k + 1);
      MovesFromOrdered(x, y, n, k + 1);
      MovesFromRanked(x, y, n, k + 1);
      CandidateRank(x, y, k);
      if IsValidMove(c.0, c.1, n) {
        PrependOrdered(x, y, c, rest);
      }
    }
  }

  /** The legal knight destinations from (x, y) on the n x n board. */
  function KnightMoves(x: int, y: int, n: int): (r: seq<Square>)
    ensures |r| <= 8
    ensures forall s :: s in r <==> IsKnightStep((x, y), s) && IsValidMove(s.0, s.1, n)
    ensures forall i, j :: 0 <= i < j < |r| ==> Rank(x, y, r[i]) < Rank(x, y, r[j])
    ensures forall i, j :: 0 <= i < j < |r| ==> r[i] != r[j]
  {
    MovesFromLength(x, y, n, 0);
    MovesFromMembers(x, y, n, 0);
    MovesFromOrdered(x, y, n, 0);
    assert RankOrdered(x, y, MovesFrom(x, y, n, 0));
    MovesFrom(x, y, n, 0)
  }

  /** From a corner of the 8 x 8 board only two of the eight moves stay on
      the board, listed in the generator's order. */
  lemma CornerMoves()
    ensures KnightMoves(0, 0, 8) == [(2, 1), (1, 2)]
  {
    assert Offsets[0] == (2, 1) && Offsets[4] == (1, 2);
    assert MovesFrom(0, 0, 8, 8) == [];
    assert MovesFrom(0, 0, 8, 7) == [] by { assert Offsets[7] == (-1, -2); }
    assert MovesFrom(0, 0, 8, 6) == [] by { assert Offsets[6] == (-1, 2); }
    assert MovesFrom(0, 0, 8, 5) == [] by { assert Offsets[5] == (1, -2); }
    assert MovesFrom(0, 0, 8, 4) == [(1, 2)];
    assert MovesFrom(0, 0, 8, 3) == [(1, 2)] by { assert Offsets[3] == (-2, -1); }
    assert MovesFrom(0, 0, 8, 2) == [(1, 2)] by { assert Offsets[2] == (-2, 1); }
    assert MovesFrom(0, 0, 8, 1) == [(1, 2)] by { assert Offsets[1] == (2, -1); }
    assert MovesFrom(0, 0, 8, 0) == [(2, 1), (1, 2)];
  }
}

=== FILE: coverage.dfy ===
/**
 Which paths the search returns. The goal is never expanded, so when a
 square v one knight move from the goal is expanded through walk w, the walk
 w + [goal] is queued. If |w| + 1 is the shortest distance to the goal, that
 walk is collected when it is dequeued. So every square from which a
 shortest walk makes its last move is the second-to-last square of some
 returned path.
 */
module Coverage {
  import opened Board
  import opened Walks
  import opened Frontier

  /** via records, for each expanded square, a walk from start that ends on
      it and has the length depth records. */
  ghost predicate ViaOk(start: Square, n: int, visited: set<Square>, depth: map<Square, nat>, via: map<Square, seq<Square>>)
  {
    && visited <= depth.Keys
    && visited <= via.Keys
    && forall v :: v in visited ==> IsWalk(via[v], start, n) && Last(via[v]) == v && |via[v]| == depth[v]
  }

  /** Some collected path makes its last move from v. */
  ghost predicate CollectedFrom(paths: seq<seq<Square>>, v: Square)
  {
    exists i :: 0 <= i < |paths| && |paths[i]| >= 2 && Penult(paths[i]) == v
  }

  /** For every expanded square v one knight move from the on-board goal,
      the walk via[v] + [goal] is still queued, or a collected path leaves
      from v, or that walk's length is not the frozen one. */
  ghost predicate Covered(goal: Square, n: int, queue: seq<Entry>, paths: seq<seq<Square>>, found: Option<nat>,
                          visited: set<Square>, depth: map<Square, nat>, via: map<Square, seq<Square>>)
    requires visited <= depth.Keys && visited <= via.Keys
  {
    forall v :: v in visited && IsValidMove(goal.0, goal.1, n) && IsKnightStep(v, goal) ==>
      || (exists i :: 0 <= i < |queue| && queue[i].path == via[v] + [goal])
      || CollectedFrom(paths, v)
      || (found.Some? && found.value != depth[v] + 1)
  }

  ghost predicate Complete(start: Square, goal: Square, n: int, queue: seq<Entry>, paths: seq<seq<Square>>,
                           found: Option<nat>, visited: set<Square>, depth: map<Square, nat>,
                           via: map<Square, seq<Square>>)
  {
    ViaOk(start, n, visited, depth, via) && Covered(goal, n, queue, paths, found, visited, depth, via)
  }

  lemma InitComplete(start: Square, goal: Square, n: int)
    ensures Complete(start, goal, n, [Entry([start], start)], [], None, {}, map[], map[])
  {
  }

  /** Dequeuing a walk to the goal: if it is some via[v] + [goal], it is
      either collected or its length differs from the frozen one. */
  lemma GoalComplete(start: Square, goal: Square, n: int, queue: seq<Entry>, paths: seq<seq<Square>>,
                     found: Option<nat>, visited: set<Square>, depth: map<Square, nat>,
                     via: map<Square, seq<Square>>, paths': seq<seq<Square>>, found': Option<nat>)
    requires Complete(start, goal, n, queue, paths, found, visited, depth, via)
    requires |queue| > 0
    requires found' == (if found.None? then Some(|queue[0].path|) else found)
    requires paths' == (if |queue[0].path| == found'.value then paths + [queue[0].path] else paths)
    ensures Complete(start, goal, n, queue[1..], paths', found', visited, depth, via)
  {
    var path := queue[0].path;
    var rest := queue[1..];
    forall v | v in visited && IsValidMove(goal.0, goal.1, n) && IsKnightStep(v, goal)
      ensures || (exists i :: 0 <= i < |rest| && rest[i].path == via[v] + [goal])
              || CollectedFrom(paths', v)
              || (found'.Some? && found'.value != depth[v] + 1)
    {
      if CollectedFrom(paths, v) {
        var i :| 0 <= i < |paths| && |paths[i]| >= 2 && Penult(paths[i]) == v;
        assert paths'[i] == paths[i];
      } else if exists i :: 0 <= i < |queue| && queue[i].path == via[v] + [goal] {
        var i :| 0 <= i < |queue| && queue[i].path == via[v] + [goal];
        if i > 0 {
          assert rest[i - 1] == queue[i];
        } else if |path| == found'.value {
          assert paths'[|paths|] == path;
          assert Penult(path) == Last(via[v]);
        }
      }
    }
  }

  /** Discarding a walk to an expanded square, which is not the goal, keeps
      coverage. */
  lemma SkipComplete(start: Square, goal: Square, n: int, queue: seq<Entry>, paths: seq<seq<Square>>,
                     found: Option<nat>, visited: set<Square>, depth: map<Square, nat>,
                     via: map<Square, seq<Square>>)
    requires Complete(start, goal, n, queue, paths, found, visited, depth, via)
    requires |queue| > 0 && |queue[0].path| > 0 && Last(queue[0].path) != goal
    ensures Complete(start, goal, n, queue[1..], paths, found, visited, depth, via)
  {
    var rest := queue[1..];
    forall v | v in visited && IsValidMove(goal.0, goal.1, n) && IsKnightStep(v, goal)
      ensures || (exists i :: 0 <= i < |rest| && rest[i].path == via[v] + [goal])
              || CollectedFrom(paths, v)
              || (found.Some? && found.value != depth[v] + 1)
    {
      if exists i :: 0 <= i < |queue| && queue[i].path == via[v] + [goal] {
        assert queue[0].path != via[v] + [goal] by {
          assert Last(via[v] + [goal]) == goal;
        }
        var i :| 0 < i < |queue| && queue[i].path == via[v] + [goal];
        assert rest[i - 1] == queue[i];
      }
    }
  }

  /** Expanding square c through path: when the goal is one knight move
      from c, the walk path + [goal] is queued. */
  lemma ExpandComplete(start: Square, goal: Square, n: int, queue: seq<Entry>, paths: seq<seq<Square>>,
                       found: Option<nat>, visited: set<Square>, depth: map<Square, nat>,
                       via: map<Square, seq<Square>>, path: seq<Square>, c: Square,
                       moves: seq<Square>, added: seq<Entry>)
    requires Complete(start, goal, n, queue, paths, found, visited, depth, via)
    requires |queue| > 0 && queue[0].path == path
    requires IsWalk(path, start, n) && Last(path) == c && c != goal
    requires c !in visited && goal !in visited
    requires MovesOf(moves, c, n) && AddedFrom(added, path, moves, visited + {c})
    ensures Complete(start, goal, n, queue[1..] + added, paths, found, visited + {c},
                     depth[c := |path|], via[c := path])
  {
    var q := queue[1..] + added;
    var depth', via' := depth[c := |path|], via[c := path];
    forall v | v in visited + {c} && IsValidMove(goal.0, goal.1, n) && IsKnightStep(v, goal)
      ensures || (exists i :: 0 <= i < |q| && q[i].path == via'[v] + [goal])
              || CollectedFrom(paths, v)
              || (found.Some? && found.value != depth'[v] + 1)
    {
      if v == c {
        assert goal in moves;
        var i :| 0 <= i < |added| && added[i].current == goal;
        assert q[|queue| - 1 + i] == added[i];
      } else if exists i :: 0 <= i < |queue| && queue[i].path == via[v] + [goal] {
        assert path != via[v] + [goal] by {
          assert Last(via[v] + [goal]) == goal;
        }
        var i :| 0 < i < |queue| && queue[i].path == via[v] + [goal];
        assert q[i - 1] == queue[i];
      }
    }
  }

  /** A shortest walk to the goal passes through the goal only at its end. */
  lemma ShortestAvoids(q: seq<Square>, start: Square, goal: Square, n: int)
    requires IsWalk(q, start, n) && Last(q) == goal && NoShorterWalk(|q|, start, goal, n)
    ensures forall k :: 0 <= k < |q| - 1 ==> q[k] != goal
  {
    forall k | 0 <= k < |q| - 1
      ensures q[k] != goal
    {
      WalkPrefix(q, start, n, k + 1);
    }
  }

  /** With the queue empty, the square from which a shortest walk q to the
      goal makes its last move was expanded through a walk one square
      shorter than q. */
  lemma PenultExpanded(start: Square, goal: Square, n: int, paths: seq<seq<Square>>, found: Option<nat>,
                       visited: set<Square>, depth: map<Square, nat>, via: map<Square, seq<Square>>, q: seq<Square>)
    requires Inv(start, goal, n, [], visited, depth, paths, found)
    requires ViaOk(start, n, visited, depth, via)
    requires IsWalk(q, start, n) && Last(q) == goal && |q| >= 2 && NoShorterWalk(|q|, start, goal, n)
    ensures Penult(q) in visited && depth[Penult(q)] + 1 == |q|
    ensures IsValidMove(goal.0, goal.1, n) && IsKnightStep(Penult(q), goal)
  {
    var len := |q|;
    var v := Penult(q);
    var w := q[..len - 1];
    WalkPrefix(q, start, n, len - 1);
    ShortestAvoids(q, start, goal, n);
    assert AvoidsBefore(w, goal) && v != goal;
    ReachesOrExpanded(start, goal, n, [], visited, depth, found, w);
    assert depth[v] <= len - 1;
    assert q[len - 1] == goal && q[len - 2] == v;
    WalkExtend(via[v], start, n, goal);
  }

  /** With the queue empty and the goal reachable, the frozen length is the
      length of a shortest walk to the goal. */
  lemma FoundShortest(start: Square, goal: Square, n: int, paths: seq<seq<Square>>, found: Option<nat>,
                      visited: set<Square>, depth: map<Square, nat>, q: seq<Square>)
    requires Inv(start, goal, n, [], visited, depth, paths, found)
    requires IsWalk(q, start, n) && Last(q) == goal && NoShorterWalk(|q|, start, goal, n)
    ensures found == Some(|q|)
  {
    ShortestAvoids(q, start, goal, n);
    ReachesOrExpanded(start, goal, n, [], visited, depth, found, q);
    assert IsWalk(paths[0], start, n) && Last(paths[0]) == goal;
  }

  /** Once the queue is empty, every square from which a shortest walk to
      the goal makes its last move is the second-to-last square of some
      collected path. */
  lemma AllPredecessors(start: Square, goal: Square, n: int, paths: seq<seq<Square>>, found: Option<nat>,
                        visited: set<Square>, depth: map<Square, nat>, via: map<Square, seq<Square>>)
    requires Inv(start, goal, n, [], visited, depth, paths, found)
    requires Complete(start, goal, n, [], paths, found, visited, depth, via)
    ensures forall q :: IsWalk(q, start, n) && Last(q) == goal && |q| >= 2 && NoShorterWalk(|q|, start, goal, n) ==>
      exists i :: 0 <= i < |paths| && |paths[i]| >= 2 && Penult(paths[i]) == Penult(q)
  {
    forall q | IsWalk(q, start, n) && Last(q) == goal && |q| >= 2 && NoShorterWalk(|q|, start, goal, n)
      ensures CollectedFrom(paths, Penult(q))
    {
      PenultExpanded(start, goal, n, paths, found, visited, depth, via, q);
      FoundShortest(start, goal, n, paths, found, visited, depth, q);
    }
  }
}

=== FILE: frontier.dfy ===
/**
 The state of the breadth-first search and the invariant that each of its
 steps keeps. The search state is the frontier queue (each item carries the
 whole walk taken so far), the set of expanded squares, the paths collected
 so far and the frozen length of the first walk that reached the goal. A
 ghost map `depth` records, for every expanded square, the length of the
 walk through which it was expanded.
 */
module Frontier {
  import opened Board
  import opened Walks

  datatype Option<T> = None | Some(value: T)

  /** A frontier-queue item: the whole walk taken so far and the square it
      ends on. */
  datatype Entry = Entry(path: seq<Square>, current: Square)

  /** The moves not yet expanded, in the order they are listed: the
      reference definition of what one expansion queues. */
  function Unexpanded(moves: seq<Square>, visited: set<Square>): seq<Square>
    decreases |moves|
  {
    if moves == [] then []
    else
      var rest := Unexpanded(moves[..|moves| - 1], visited);
      var m := moves[|moves| - 1];
      if m in visited then rest else rest + [m]
  }

  /** A move is kept exactly when it is listed and not yet expanded. */
  lemma {:induction false} UnexpandedMembers(moves: seq<Square>, visited: set<Square>)
    ensures forall m :: m in Unexpanded(moves, visited) <==> m in moves && m !in visited
    decreases |moves|
  {
    if moves != [] {
      var init := moves[..|moves| - 1];
      UnexpandedMembers(init, visited);
      assert moves == init + [moves[|moves| - 1]];
    }
  }

  /** Filtering a list without repeats gives a list without repeats. */
  lemma {:induction false} UnexpandedDistinct(moves: seq<Square>, visited: set<Square>)
    requires Distinct(moves)
    ensures Distinct(Unexpanded(moves, visited))
    decreases |moves|
  {
    if moves != [] {
      var init := moves[..|moves| - 1];
      var m := moves[|moves| - 1];
      var rest := Unexpanded(init, visited);
      assert Distinct(init) by {
        forall i, j | 0 <= i < j < |init|
          ensures init[i] != init[j]
        {
          assert init[i] == moves[i] && init[j] == moves[j];
        }
      }
      UnexpandedDistinct(init, visited);
      if m !in visited {
        UnexpandedMembers(init, visited);
        assert m !in init by {
          forall i | 0 <= i < |init|
            ensures init[i] != m
          {
            assert init[i] == moves[i];
          }
        }
        var r := rest + [m];
        forall i, j | 0 <= i < j < |r|
          ensures r[i] != r[j]
        {
          if j == |rest| {
            assert r[i] == rest[i] && rest[i] in rest;
          } else {
            assert r[i] == rest[i] && r[j] == rest[j];
          }
        }
      }
    }
  }

  /** A queued item is a simple walk from start that ends on its current
      square, and every square of it but the last has been expanded. */
  ghost predicate EntryOk(e: Entry, start: Square, n: int, visited: set<Square>)
  {
    && IsWalk(e.path, start, n)
    && Last(e.path) == e.current
    && Distinct(e.path)
    && forall k :: 0 <= k < |e.path| - 1 ==> e.path[k] in visited
  }

  ghost predicate EntriesOk(queue: seq<Entry>, start: Square, n: int, visited: set<Square>)
  {
    forall i :: 0 <= i < |queue| ==> EntryOk(queue[i], start, n, visited)
  }

  /** Walk lengths in the queue never decrease from head to tail and never
      exceed the head's by more than one: the breadth-first layering. */
  ghost predicate Layered(queue: seq<Entry>)
  {
    forall i, j :: 0 <= i < j < |queue| ==> |queue[i].path| <= |queue[j].path| <= |queue[i].path| + 1
  }

  /** Some queued item ends on m with a walk of at most len squares. */
  ghost predicate QueuedWithin(queue: seq<Entry>, m: Square, len: int)
  {
    exists i :: 0 <= i < |queue| && queue[i].current == m && |queue[i].path| <= len
  }

  /** Some queued item has a walk of at most len squares. */
  ghost predicate SomeWithin(queue: seq<Entry>, len: int)
  {
    exists i :: 0 <= i < |queue| && |queue[i].path| <= len
  }

  /** No walk from start to v that avoids goal before its end is shorter
      than d squares. */
  ghost predicate Nearest(d: int, start: Square, goal: Square, v: Square, n: int)
  {
    forall q :: IsWalk(q, start, n) && Last(q) == v && AvoidsBefore(q, goal) ==> d <= |q|
  }

  /** Every unexpanded board neighbour of an expanded square v is queued
      with a walk at most one longer than v's, or is the goal and the goal
      has already been reached. */
  ghost predicate Closed(queue: seq<Entry>, visited: set<Square>, depth: map<Square, nat>, goal: Square, found: Option<nat>, n: int)
    requires visited <= depth.Keys
  {
    forall v, m: Square :: v in visited && IsValidMove(m.0, m.1, n) && IsKnightStep(v, m) && m !in visited ==>
      QueuedWithin(queue, m, depth[v] + 1) || (m == goal && found.Some?)
  }

  /** Until start is expanded, it is queued with its one-square walk. */
  ghost predicate StartPending(queue: seq<Entry>, visited: set<Square>, start: Square, goal: Square, found: Option<nat>)
  {
    start !in visited ==> QueuedWithin(queue, start, 1) || (start == goal && found.Some?)
  }

  /** The collected paths are simple walks from start to goal, all of the
      frozen length, and that length is minimal. */
  ghost predicate ResultsOk(paths: seq<seq<Square>>, found: Option<nat>, start: Square, goal: Square, n: int)
  {
    && (found.None? ==> paths == [])
    && (found.Some? ==> |paths| > 0 && NoShorterWalk(found.value, start, goal, n))
    && forall i :: 0 <= i < |paths| ==>
         && found.Some?
         && |paths[i]| == found.value
         && IsWalk(paths[i], start, n)
         && Last(paths[i]) == goal
         && Distinct(paths[i])
  }

  /** When start is the goal, the search is either untouched or finished
      with the one-square walk. */
  ghost predicate SameSquare(queue: seq<Entry>, paths: seq<seq<Square>>, found: Option<nat>, start: Square, goal: Square)
  {
    start == goal ==>
      || (queue == [Entry([start], start)] && paths == [] && found.None?)
      || (queue == [] && paths == [[start]])
  }

  ghost predicate Inv(start: Square, goal: Square, n: int, queue: seq<Entry>, visited: set<Square>,
                      depth: map<Square, nat>, paths: seq<seq<Square>>, found: Option<nat>)
  {
    && goal !in visited
    && visited <= depth.Keys
    && EntriesOk(queue, start, n, visited)
    && Layered(queue)
    && (forall v :: v in visited ==> Nearest(depth[v], start, goal, v, n))
    && Closed(queue, visited, depth, goal, found, n)
    && StartPending(queue, visited, start, goal, found)
    && ResultsOk(paths, found, start, goal, n)
    && SameSquare(queue, paths, found, start, goal)
  }

  /** The search starts from the one-square walk at start. */
  lemma InitInv(start: Square, goal: Square, n: int)
    ensures Inv(start, goal, n, [Entry([start], start)], {}, map[], [], None)
  {
    assert QueuedWithin([Entry([start], start)], start, 1) by {
      assert [Entry([start], start)][0].current == start;
    }
  }

  /** The head of a layered queue is no longer than any item in it. */
  lemma HeadShortest(queue: seq<Entry>, len: int)
    requires Layered(queue) && SomeWithin(queue, len)
    ensures |queue| > 0 && |queue[0].path| <= len
  {
    var i :| 0 <= i < |queue| && |queue[i].path| <= len;
    if i > 0 {
      assert |queue[0].path| <= |queue[i].path|;
    }
  }

  /** The frontier argument: a walk from start that avoids goal before its
      end and ends on an unexpanded square is matched by a queued walk no
      longer than it, unless it ends on the goal and the goal was reached. */
  lemma {:induction false} Reaches(start: Square, goal: Square, n: int, queue: seq<Entry>, visited: set<Square>,
                                   depth: map<Square, nat>, found: Option<nat>, q: seq<Square>)
    requires visited <= depth.Keys
    requires forall v :: v in visited ==> Nearest(depth[v], start, goal, v, n)
    requires Closed(queue, visited, depth, goal, found, n)
    requires StartPending(queue, visited, start, goal, found)
    requires IsWalk(q, start, n) && AvoidsBefore(q, goal) && Last(q) !in visited
    ensures SomeWithin(queue, |q|) || (Last(q) == goal && found.Some?)
  {
    var j := 0;
    while q[j] in visited
      invariant 0 <= j < |q|
      invariant forall k :: 0 <= k < j ==> q[k] in visited
      decreases |q| - j
    {
      j := j + 1;
    }
    if j == 0 {
      if QueuedWithin(queue, start, 1) {
        var i :| 0 <= i < |queue| && queue[i].current == start && |queue[i].path| <= 1;
        assert SomeWithin(queue, |q|);
      } else {
        assert q[0] == goal;
      }
    } else {
      var v := q[j - 1];
      var m := q[j];
      WalkPrefix(q, start, n, j);
      assert AvoidsBefore(q[..j], goal);
      assert depth[v] <= j;
      assert IsValidMove(m.0, m.1, n) && IsKnightStep(v, m);
      if QueuedWithin(queue, m, depth[v] + 1) {
        var i :| 0 <= i < |queue| && queue[i].current == m && |queue[i].path| <= depth[v] + 1;
        assert SomeWithin(queue, |q|);
      } else {
        assert m == goal;
        assert j == |q| - 1;
      }
    }
  }

  /** The frontier argument for any goal-avoiding walk from start: its last
      square is expanded, or a queued walk is no longer than it, or it ends
      on the goal and the goal was reached. */
  lemma ReachesOrExpanded(start: Square, goal: Square, n: int, queue: seq<Entry>, visited: set<Square>,
                          depth: map<Square, nat>, found: Option<nat>, q: seq<Square>)
    requires visited <= depth.Keys
    requires forall v :: v in visited ==> Nearest(depth[v], start, goal, v, n)
    requires Closed(queue, visited, depth, goal, found, n)
    requires StartPending(queue, visited, start, goal, found)
    requires IsWalk(q, start, n) && AvoidsBefore(q, goal)
    ensures Last(q) in visited || SomeWithin(queue, |q|) || (Last(q) == goal && found.Some?)
  {
    if Last(q) !in visited {
      Reaches(start, goal, n, queue, visited, depth, found, q);
    }
  }

  /** Dropping the head keeps the rest of the queue well formed and
      layered. */
  lemma DequeueTail(start: Square, n: int, queue: seq<Entry>, visited: set<Square>)
    requires EntriesOk(queue, start, n, visited) && Layered(queue)
    requires |queue| > 0
    ensures EntriesOk(queue[1..], start, n, visited) && Layered(queue[1..])
  {
    var rest := queue[1..];
    forall i | 0 <= i < |rest|
      ensures EntryOk(rest[i], start, n, visited)
    {
      assert rest[i] == queue[i + 1];
    }
    forall i, j | 0 <= i < j < |rest|
      ensures |rest[i].path| <= |rest[j].path| <= |rest[i].path| + 1
    {
      assert rest[i] == queue[i + 1] && rest[j] == queue[j + 1];
    }
  }

  /** Dropping the head keeps the frontier closed when the head ends on an
      expanded square, or on the goal once the goal counts as reached. */
  lemma DequeueClosed(queue: seq<Entry>, visited: set<Square>, depth: map<Square, nat>, goal: Square,
                      found: Option<nat>, found': Option<nat>, n: int)
    requires visited <= depth.Keys
    requires Closed(queue, visited, depth, goal, found, n)
    requires |queue| > 0
    requires found.Some? ==> found'.Some?
    requires queue[0].current in visited || (queue[0].current == goal && found'.Some?)
    ensures Closed(queue[1..], visited, depth, goal, found', n)
  {
    var rest := queue[1..];
    forall v, m: Square | v in visited && IsValidMove(m.0, m.1, n) && IsKnightStep(v, m) && m !in visited
      ensures QueuedWithin(rest, m, depth[v] + 1) || (m == goal && found'.Some?)
    {
      if QueuedWithin(queue, m, depth[v] + 1) {
        var i :| 0 <= i < |queue| && queue[i].current == m && |queue[i].path| <= depth[v] + 1;
        if i > 0 {
          assert rest[i - 1] == queue[i];
        }
      }
    }
  }

  /** The first walk to reach the goal at the queue's head is a shortest
      walk to the goal. */
  lemma FirstArrival(start: Square, goal: Square, n: int, queue: seq<Entry>, visited: set<Square>,
                     depth: map<Square, nat>, paths: seq<seq<Square>>, found: Option<nat>)
    requires Inv(start, goal, n, queue, visited, depth, paths, found)
    requires |queue| > 0 && queue[0].current == goal && found.None?
    ensures NoShorterWalk(|queue[0].path|, start, goal, n)
  {
    forall p | IsWalk(p, start, n) && Last(p) == goal
      ensures |queue[0].path| <= |p|
    {
      var q := TrimAtGoal(p, start, goal, n);
      Reaches(start, goal, n, queue, visited, depth, found, q);
      HeadShortest(queue, |q|);
    }
  }

  /** Dequeuing a walk that ends on the goal: the first one freezes the
      length, and walks of that length are collected. */
  lemma StepGoal(start: Square, goal: Square, n: int, queue: seq<Entry>, visited: set<Square>,
                 depth: map<Square, nat>, paths: seq<seq<Square>>, found: Option<nat>,
                 paths': seq<seq<Square>>, found': Option<nat>)
    requires Inv(start, goal, n, queue, visited, depth, paths, found)
    requires |queue| > 0 && queue[0].current == goal
    requires found' == (if found.None? then Some(|queue[0].path|) else found)
    requires paths' == (if |queue[0].path| == found'.value then paths + [queue[0].path] else paths)
    ensures Inv(start, goal, n, queue[1..], visited, depth, paths', found')
  {
    var e := queue[0];
    var rest := queue[1..];
    assert EntryOk(e, start, n, visited);
    DequeueTail(start, n, queue, visited);
    DequeueClosed(queue, visited, depth, goal, found, found', n);
    assert StartPending(rest, visited, start, goal, found') by {
      if start != goal {
        assert e.path[0] == start && |e.path| > 1;
      }
    }
    if found.None? {
      FirstArrival(start, goal, n, queue, visited, depth, paths, found);
    }
    GoalResults(start, goal, n, e.path, paths, found, paths', found');
  }

  /** Collecting a walk to the goal of the frozen length keeps the collected
      paths simple shortest walks of one length. */
  lemma GoalResults(start: Square, goal: Square, n: int, path: seq<Square>,
                    paths: seq<seq<Square>>, found: Option<nat>,
                    paths': seq<seq<Square>>, found': Option<nat>)
    requires ResultsOk(paths, found, start, goal, n)
    requires IsWalk(path, start, n) && Last(path) == goal && Distinct(path)
    requires found.None? ==> NoShorterWalk(|path|, start, goal, n)
    requires found' == (if found.None? then Some(|path|) else found)
    requires paths' == (if |path| == found'.value then paths + [path] else paths)
    ensures ResultsOk(paths', found', start, goal, n)
  {
    if |path| == found'.value {
      forall i | 0 <= i < |paths'|
        ensures |paths'[i]| == found'.value && IsWalk(paths'[i], start, n)
        ensures Last(paths'[i]) == goal && Distinct(paths'[i])
      {
        if i < |paths| {
          assert paths'[i] == paths[i];
        }
      }
    }
  }

  /** Dequeuing a walk to an already expanded square discards it. */
  lemma StepSkip(start: Square, goal: Square, n: int, queue: seq<Entry>, visited: set<Square>,
                 depth: map<Square, nat>, paths: seq<seq<Square>>, found: Option<nat>)
    requires Inv(start, goal, n, queue, visited, depth, paths, found)
    requires |queue| > 0 && queue[0].current != goal && queue[0].current in visited
    ensures Inv(start, goal, n, queue[1..], visited, depth, paths, found)
  {
    DequeueTail(start, n, queue, visited);
    DequeueClosed(queue, visited, depth, goal, found, found, n);
    assert start in visited by {
      var e := queue[0];
      assert EntryOk(e, start, n, visited);
      assert e.path[0] == start;
    }
  }

  /** The items appended when expanding c from walk path, as the move
      generator and the not-yet-expanded filter produce them. */
  ghost predicate AddedFrom(added: seq<Entry>, path: seq<Square>, moves: seq<Square>, visited: set<Square>)
  {
    && (forall i :: 0 <= i < |added| ==> added[i].path == path + [added[i].current])
    && (forall i :: 0 <= i < |added| ==> added[i].current in moves && added[i].current !in visited)
    && (forall m :: m in moves && m !in visited ==> exists i :: 0 <= i < |added| && added[i].current == m)
  }

  /** moves lists exactly the on-board knight destinations from c. */
  ghost predicate MovesOf(moves: seq<Square>, c: Square, n: int)
  {
    forall m: Square :: m in moves <==> IsValidMove(m.0, m.1, n) && IsKnightStep(c, m)
  }

  /** Expansion keeps every queued item a simple walk whose earlier squares
      are expanded. */
  lemma ExpandEntries(start: Square, n: int, queue: seq<Entry>, visited: set<Square>,
                      path: seq<Square>, c: Square, moves: seq<Square>, added: seq<Entry>)
    requires EntriesOk(queue, start, n, visited)
    requires |queue| > 0 && queue[0] == Entry(path, c)
    requires MovesOf(moves, c, n) && AddedFrom(added, path, moves, visited + {c})
    ensures EntriesOk(queue[1..] + added, start, n, visited + {c})
  {
    var rest := queue[1..];
    var queue' := rest + added;
    var visited' := visited + {c};
    assert EntryOk(queue[0], start, n, visited);
    forall i | 0 <= i < |queue'|
      ensures EntryOk(queue'[i], start, n, visited')
    {
      if i < |rest| {
        assert queue'[i] == queue[i + 1];
        assert EntryOk(queue[i + 1], start, n, visited);
      } else {
        var a := added[i - |rest|];
        var m := a.current;
        assert queue'[i] == a;
        assert m in moves && m !in visited';
        WalkExtend(path, start, n, m);
        assert a.path == path + [m];
        assert forall k :: 0 <= k < |path| ==> path[k] in visited';
        assert Distinct(a.path);
      }
    }
  }

  /** Expansion appends walks one longer than the head's, which keeps the
      queue layered. */
  lemma ExpandLayered(queue: seq<Entry>, path: seq<Square>, added: seq<Entry>)
    requires Layered(queue)
    requires |queue| > 0 && queue[0].path == path
    requires forall i :: 0 <= i < |added| ==> |added[i].path| == |path| + 1
    ensures Layered(queue[1..] + added)
  {
    var rest := queue[1..];
    var queue' := rest + added;
    var d := |path|;
    forall i | 0 <= i < |rest|
      ensures d <= |rest[i].path| <= d + 1
    {
      assert rest[i] == queue[i + 1];
    }
    forall i, j | 0 <= i < j < |queue'|
      ensures |queue'[i].path| <= |queue'[j].path| <= |queue'[i].path| + 1
    {
      if j < |rest| {
        assert queue'[i] == queue[i + 1] && queue'[j] == queue[j + 1];
      } else if i < |rest| {
        assert queue'[i] == rest[i] && queue'[j] == added[j - |rest|];
      } else {
        assert queue'[i] == added[i - |rest|] && queue'[j] == added[j - |rest|];
      }
    }
  }

  /** The first walk through which a square is expanded is a shortest walk
      to it among those that do not pass through the goal. */
  lemma ExpandNearest(start: Square, goal: Square, n: int, queue: seq<Entry>, visited: set<Square>,
                      depth: map<Square, nat>, paths: seq<seq<Square>>, found: Option<nat>,
                      path: seq<Square>, c: Square)
    requires Inv(start, goal, n, queue, visited, depth, paths, found)
    requires |queue| > 0 && queue[0] == Entry(path, c)
    requires c != goal && c !in visited
    ensures Nearest(|path|, start, goal, c, n)
  {
    forall q | IsWalk(q, start, n) && Last(q) == c && AvoidsBefore(q, goal)
      ensures |path| <= |q|
    {
      Reaches(start, goal, n, queue, visited, depth, found, q);
      HeadShortest(queue, |q|);
    }
  }

  /** After expansion the unexpanded neighbours of c are queued one step
      further than c, and the other covering items are still queued. */
  lemma ExpandClosed(goal: Square, n: int, queue: seq<Entry>, visited: set<Square>,
                     depth: map<Square, nat>, found: Option<nat>,
                     path: seq<Square>, c: Square, moves: seq<Square>, added: seq<Entry>)
    requires visited <= depth.Keys
    requires Closed(queue, visited, depth, goal, found, n)
    requires |queue| > 0 && queue[0] == Entry(path, c)
    requires MovesOf(moves, c, n) && AddedFrom(added, path, moves, visited + {c})
    ensures Closed(queue[1..] + added, visited + {c}, depth[c := |path|], goal, found, n)
  {
    var rest := queue[1..];
    var queue' := rest + added;
    var visited' := visited + {c};
    var depth' := depth[c := |path|];
    forall v, m: Square | v in visited' && IsValidMove(m.0, m.1, n) && IsKnightStep(v, m) && m !in visited'
      ensures QueuedWithin(queue', m, depth'[v] + 1) || (m == goal && found.Some?)
    {
      if v == c {
        assert m in moves;
        var i :| 0 <= i < |added| && added[i].current == m;
        assert queue'[|rest| + i] == added[i];
      } else if QueuedWithin(queue, m, depth[v] + 1) {
        var i :| 0 <= i < |queue| && queue[i].current == m && |queue[i].path| <= depth[v] + 1;
        assert queue'[i - 1] == queue[i];
      }
    }
  }

  /** Expanding c: c is marked expanded at the head's walk length, and the
      walks extended by each on-board move from c that is not yet expanded
      join the back of the queue. */
  lemma StepExpand(start: Square, goal: Square, n: int, queue: seq<Entry>, visited: set<Square>,
                   depth: map<Square, nat>, paths: seq<seq<Square>>, found: Option<nat>,
                   path: seq<Square>, c: Square, moves: seq<Square>, added: seq<Entry>)
    requires Inv(start, goal, n, queue, visited, depth, paths, found)
    requires |queue| > 0 && queue[0] == Entry(path, c)
    requires c != goal && c !in visited
    requires MovesOf(moves, c, n) && AddedFrom(added, path, moves, visited + {c})
    ensures Inv(start, goal, n, queue[1..] + added, visited + {c}, depth[c := |path|], paths, found)
  {
    var queue' := queue[1..] + added;
    var visited' := visited + {c};
    var depth' := depth[c := |path|];
    ExpandEntries(start, n, queue, visited, path, c, moves, added);
    ExpandLayered(queue, path, added);
    ExpandNearest(start, goal, n, queue, visited, depth, paths, found, path, c);
    assert forall v :: v in visited' ==> Nearest(depth'[v], start, goal, v, n);
    ExpandClosed(goal, n, queue, visited, depth, found, path, c, moves, added);
    ExpandStart(start, goal, queue, visited, found, c, added);
    assert SameSquare(queue', paths, found, start, goal);
  }

  /** Expansion leaves start covered: it is either expanded now or still
      queued behind the head. */
  lemma ExpandStart(start: Square, goal: Square, queue: seq<Entry>, visited: set<Square>,
                    found: Option<nat>, c: Square, added: seq<Entry>)
    requires StartPending(queue, visited, start, goal, found)
    requires |queue| > 0 && queue[0].current == c
    ensures StartPending(queue[1..] + added, visited + {c}, start, goal, found)
  {
    var queue' := queue[1..] + added;
    if start !in visited + {c} && QueuedWithin(queue, start, 1) {
      var i :| 0 <= i < |queue| && queue[i].current == start && |queue[i].path| <= 1;
      assert queue'[i - 1] == queue[i];
    }
  }

  /** When the queue is empty the collected paths are exactly the answer:
      simple walks from start to goal of one minimal length, and none at all
      only when the goal cannot be reached. */
  lemma Finish(start: Square, goal: Square, n: int, visited: set<Square>,
               depth: map<Square, nat>, paths: seq<seq<Square>>, found: Option<nat>)
    requires Inv(start, goal, n, [], visited, depth, paths, found)
    ensures forall i :: 0 <= i < |paths| ==> IsWalk(paths[i], start, n) && Last(paths[i]) == goal
    ensures forall i :: 0 <= i < |paths| ==> Distinct(paths[i])
    ensures forall i, j :: 0 <= i < j < |paths| ==> |paths[i]| == |paths[j]|
    ensures forall i :: 0 <= i < |paths| ==> NoShorterWalk(|paths[i]|, start, goal, n)
    ensures paths == [] <==> !Reachable(start, goal, n)
    ensures start == goal ==> paths == [[start]]
  {
    if paths != [] {
      assert IsWalk(paths[0], start, n) && Last(paths[0]) == goal;
    }
    if Reachable(start, goal, n) {
      var p: seq<Square> :| IsWalk(p, start, n) && Last(p) == goal;
      var q := TrimAtGoal(p, start, goal, n);
      Reaches(start, goal, n, [], visited, depth, found, q);
    }
  }
}

=== FILE: provenance.dfy ===
/**
 Where the walks in the search come from. Every walk of two or more squares
 that is queued or collected is the walk through which its second-to-last
 square was expanded, extended by one move. Since a square is expanded at
 most once and the move generator lists each destination once, no such walk
 is ever queued or collected twice, and the collected paths have pairwise
 different second-to-last squares.

 A ghost map `via` records, for every expanded square, the walk through
 which it was expanded.
 */
module Provenance {
  import opened Board
  import opened Walks
  import opened Frontier

  /** The walks carried by the queue items, in queue order. */
  ghost function Paths(queue: seq<Entry>): (r: seq<seq<Square>>)
    ensures |r| == |queue|
    ensures forall i :: 0 <= i < |queue| ==> r[i] == queue[i].path
  {
    seq(|queue|, i requires 0 <= i < |queue| => queue[i].path)
  }

  /** No walk of two or more squares occurs twice in s. */
  ghost predicate LongDistinct(s: seq<seq<Square>>)
  {
    forall i, j :: 0 <= i < j < |s| && |s[i]| >= 2 ==> s[i] != s[j]
  }

  /** Every walk of two or more squares in s is the expansion walk of its
      second-to-last square, extended by one move. */
  ghost predicate FromExpansion(s: seq<seq<Square>>, visited: set<Square>, via: map<Square, seq<Square>>)
  {
    forall x :: x in s && |x| >= 2 ==>
      Penult(x) in visited && Penult(x) in via && x[..|x| - 1] == via[Penult(x)]
  }

  /** The walks alive in the search: those collected, then those queued. */
  ghost function Alive(paths: seq<seq<Square>>, queue: seq<Entry>): seq<seq<Square>>
  {
    paths + Paths(queue)
  }

  ghost predicate Lineage(paths: seq<seq<Square>>, queue: seq<Entry>, visited: set<Square>, via: map<Square, seq<Square>>)
  {
    LongDistinct(Alive(paths, queue)) && FromExpansion(Alive(paths, queue), visited, via)
  }

  lemma InitLineage(start: Square)
    ensures Lineage([], [Entry([start], start)], {}, map[])
  {
    assert Alive([], [Entry([start], start)]) == [[start]];
  }

  /** Dropping one walk keeps the others distinct. */
  lemma RemoveOne(s: seq<seq<Square>>, k: nat)
    requires k < |s| && LongDistinct(s)
    ensures LongDistinct(s[..k] + s[k + 1..])
  {
    var t := s[..k] + s[k + 1..];
    forall i, j | 0 <= i < j < |t| && |t[i]| >= 2
      ensures t[i] != t[j]
    {
      var i' := if i < k then i else i + 1;
      var j' := if j < k then j else j + 1;
      assert t[i] == s[i'] && t[j] == s[j'];
    }
  }

  /** The alive walks after the head item is removed from the queue. */
  lemma AliveDequeue(paths: seq<seq<Square>>, queue: seq<Entry>)
    requires |queue| > 0
    ensures Alive(paths, queue) == paths + [queue[0].path] + Paths(queue[1..])
    ensures Alive(paths, queue[1..]) == Alive(paths, queue)[..|paths|] + Alive(paths, queue)[|paths| + 1..]
  {
    assert Paths(queue) == [queue[0].path] + Paths(queue[1..]);
  }

  /** Dequeuing a walk that ends on the goal either moves it to the
      collected paths or drops it. */
  lemma GoalLineage(paths: seq<seq<Square>>, queue: seq<Entry>, visited: set<Square>,
                    via: map<Square, seq<Square>>, paths': seq<seq<Square>>)
    requires Lineage(paths, queue, visited, via)
    requires |queue| > 0
    requires paths' == paths + [queue[0].path] || paths' == paths
    ensures Lineage(paths', queue[1..], visited, via)
  {
    AliveDequeue(paths, queue);
    if paths' == paths {
      RemoveOne(Alive(paths, queue), |paths|);
    } else {
      assert Alive(paths', queue[1..]) == Alive(paths, queue);
    }
  }

  /** Discarding a walk to an already expanded square drops it. */
  lemma SkipLineage(paths: seq<seq<Square>>, queue: seq<Entry>, visited: set<Square>, via: map<Square, seq<Square>>)
    requires Lineage(paths, queue, visited, via)
    requires |queue| > 0
    ensures Lineage(paths, queue[1..], visited, via)
  {
    GoalLineage(paths, queue, visited, via, paths);
  }

  /** The walks one expansion of c through path appends. */
  lemma FreshWalks(path: seq<Square>, c: Square, added: seq<Entry>)
    requires |path| > 0 && Last(path) == c
    requires forall i :: 0 <= i < |added| ==> added[i].path == path + [added[i].current]
    requires forall i, j :: 0 <= i < j < |added| ==> added[i].current != added[j].current
    ensures forall x :: x in Paths(added) ==> |x| >= 2 && Penult(x) == c && x[..|x| - 1] == path
    ensures forall i, j :: 0 <= i < j < |added| ==> Paths(added)[i] != Paths(added)[j]
  {
    var grown := Paths(added);
    forall i | 0 <= i < |grown|
      ensures |grown[i]| >= 2 && Penult(grown[i]) == c && grown[i][..|grown[i]| - 1] == path
      ensures Last(grown[i]) == added[i].current
    {
      assert grown[i] == path + [added[i].current];
    }
  }

  /** Two lists of walks that are each distinct, where every long walk of
      the first has its second-to-last square inside the expanded set, while
      c is outside it and is second to last in every walk of the second, stay
      distinct when joined. */
  lemma JoinDistinct(kept: seq<seq<Square>>, grown: seq<seq<Square>>, visited: set<Square>, c: Square)
    requires LongDistinct(kept) && c !in visited
    requires forall x :: x in kept && |x| >= 2 ==> Penult(x) in visited
    requires forall x :: x in grown ==> |x| >= 2 && Penult(x) == c
    requires forall i, j :: 0 <= i < j < |grown| ==> grown[i] != grown[j]
    ensures LongDistinct(kept + grown)
  {
    var all := kept + grown;
    forall i, j | 0 <= i < j < |all| && |all[i]| >= 2
      ensures all[i] != all[j]
    {
      if j < |kept| {
        assert all[i] == kept[i] && all[j] == kept[j];
      } else if i < |kept| {
        assert all[i] == kept[i] && all[j] == grown[j - |kept|];
        assert kept[i] in kept;
        assert grown[j - |kept|] in grown;
      } else {
        assert all[i] == grown[i - |kept|] && all[j] == grown[j - |kept|];
      }
    }
  }

  /** Walks derived from expansions stay so when c is expanded through path
      and walks leaving c are added. */
  lemma ExtendFromExpansion(kept: seq<seq<Square>>, grown: seq<seq<Square>>, visited: set<Square>,
                            via: map<Square, seq<Square>>, c: Square, path: seq<Square>)
    requires FromExpansion(kept, visited, via) && c !in visited
    requires forall x :: x in grown ==> |x| >= 2 && Penult(x) == c && x[..|x| - 1] == path
    ensures FromExpansion(kept + grown, visited + {c}, via[c := path])
  {
    forall x | x in kept + grown && |x| >= 2
      ensures Penult(x) in visited + {c} && Penult(x) in via[c := path] && x[..|x| - 1] == via[c := path][Penult(x)]
    {
      if x in kept {
        assert Penult(x) in visited;
      }
    }
  }

  /** The alive walks after the head is expanded: those left behind the head,
      then the appended ones. */
  lemma AliveExpand(paths: seq<seq<Square>>, queue: seq<Entry>, added: seq<Entry>)
    requires |queue| > 0
    ensures Alive(paths, queue[1..] + added) == Alive(paths, queue[1..]) + Paths(added)
    ensures forall x :: x in Alive(paths, queue[1..]) ==> x in Alive(paths, queue)
  {
    assert Paths(queue[1..] + added) == Paths(queue[1..]) + Paths(added);
    AliveDequeue(paths, queue);
  }

  /** Expanding c through walk path: the new walks all end in c and one
      distinct move, while no earlier walk has c second to last, because c
      was not yet expanded. */
  lemma ExpandLineage(paths: seq<seq<Square>>, queue: seq<Entry>, visited: set<Square>,
                      via: map<Square, seq<Square>>, path: seq<Square>, c: Square, added: seq<Entry>)
    requires Lineage(paths, queue, visited, via)
    requires |queue| > 0 && queue[0] == Entry(path, c) && |path| > 0 && Last(path) == c
    requires c !in visited
    requires forall i :: 0 <= i < |added| ==> added[i].path == path + [added[i].current]
    requires forall i, j :: 0 <= i < j < |added| ==> added[i].current != added[j].current
    ensures Lineage(paths, queue[1..] + added, visited + {c}, via[c := path])
  {
    var kept := Alive(paths, queue[1..]);
    var grown := Paths(added);
    AliveDequeue(paths, queue);
    RemoveOne(Alive(paths, queue), |paths|);
    AliveExpand(paths, queue, added);
    assert FromExpansion(kept, visited, via);
    FreshWalks(path, c, added);
    JoinDistinct(kept, grown, visited, c);
    ExtendFromExpansion(kept, grown, visited, via, c, path);
  }

  /** Two different non-empty walks differ before their end or in it. */
  lemma DifferentWalks(a: seq<Square>, b: seq<Square>)
    requires |a| > 0 && |b| > 0 && a != b
    ensures a[..|a| - 1] != b[..|b| - 1] || Last(a) != Last(b)
  {
    assert a == a[..|a| - 1] + [Last(a)];
    assert b == b[..|b| - 1] + [Last(b)];
  }

  /** Collected paths to one goal that come from single expansions have
      pairwise different second-to-last squares. */
  lemma DistinctPredecessors(paths: seq<seq<Square>>, visited: set<Square>, via: map<Square, seq<Square>>, goal: Square)
    requires Lineage(paths, [], visited, via)
    requires forall i :: 0 <= i < |paths| ==> |paths[i]| >= 2 && Last(paths[i]) == goal
    ensures forall i, j :: 0 <= i < j < |paths| ==> Penult(paths[i]) != Penult(paths[j])
  {
    assert Alive(paths, []) == paths;
    forall i, j | 0 <= i < j < |paths|
      ensures Penult(paths[i]) != Penult(paths[j])
    {
      var a, b := paths[i], paths[j];
      assert a != b;
      assert a in paths && b in paths;
      DifferentWalks(a, b);
      assert a[..|a| - 1] == via[Penult(a)] && b[..|b| - 1] == via[Penult(b)];
    }
  }
}

=== FILE: search.dfy ===
/**
 The shortest-path search: a breadth-first search over knight moves whose
 queue items carry the whole walk taken so far. The goal square is never
 expanded, so every queued walk that reaches it at the first length found
 is collected; every other square is expanded at most once.
 */
module Search {
  import opened Board
  import opened Walks
  import opened Frontier
  import opened Provenance
  import opened Coverage

  /** The queue items one expansion appends: for each move not yet expanded,
      in the generator's order, the walk extended by that move. */
  method Successors(path: seq<Square>, moves: seq<Square>, visited: set<Square>) returns (added: seq<Entry>)
    ensures |added| == |Unexpanded(moves, visited)|
    ensures forall i :: 0 <= i < |added| ==>
      added[i] == Entry(path + [Unexpanded(moves, visited)[i]], Unexpanded(moves, visited)[i])
  {
    added := [];
    for k := 0 to |moves|
      invariant |added| == |Unexpanded(moves[..k], visited)|
      invariant forall i :: 0 <= i < |added| ==>
        added[i] == Entry(path + [Unexpanded(moves[..k], visited)[i]], Unexpanded(moves[..k], visited)[i])
    {
      var move := moves[k];
      assert moves[..k + 1][..k] == moves[..k];
      if move !in visited {
        added := added + [Entry(path + [move], move)];
      }
    }
    assert moves[..|moves|] == moves;
  }

  /** One expansion of square current, reached through path: generate its
      moves and queue every one that is not yet expanded. */
  method Expand(path: seq<Square>, current: Square, n: int, visited: set<Square>)
    returns (moves: seq<Square>, added: seq<Entry>)
    ensures moves == KnightMoves(current.0, current.1, n)
    ensures MovesOf(moves, current, n)
    ensures AddedFrom(added, path, moves, visited)
    ensures forall i, j :: 0 <= i < j < |added| ==> added[i].current != added[j].current
    ensures |added| == |Unexpanded(moves, visited)|
    ensures forall i :: 0 <= i < |added| ==>
      added[i] == Entry(path + [Unexpanded(moves, visited)[i]], Unexpanded(moves, visited)[i])
  {
    moves := KnightMoves(current.0, current.1, n);
    added := Successors(path, moves, visited);
    ghost var kept := Unexpanded(moves, visited);
    UnexpandedMembers(moves, visited);
    UnexpandedDistinct(moves, visited);
    forall m | m in moves && m !in visited
      ensures exists i :: 0 <= i < |added| && added[i].current == m
    {
      var i :| 0 <= i < |kept| && kept[i] == m;
      assert added[i].current == m;
    }
    forall i | 0 <= i < |added|
      ensures added[i].current in moves && added[i].current !in visited
    {
      assert kept[i] in kept;
    }
  }

  /** The loop invariant of the search: the breadth-first invariant, the
      provenance of alive walks, and the coverage of the goal's neighbours. */
  ghost predicate Searching(start: Square, goal: Square, n: int, queue: seq<Entry>, visited: set<Square>,
                            depth: map<Square, nat>, via: map<Square, seq<Square>>,
                            paths: seq<seq<Square>>, found: Option<nat>)
  {
    && Inv(start, goal, n, queue, visited, depth, paths, found)
    && Lineage(paths, queue, visited, via)
    && Complete(start, goal, n, queue, paths, found, visited, depth, via)
  }

  /** Dequeuing a walk to the goal keeps the loop invariant. */
  lemma GoalStep(start: Square, goal: Square, n: int, queue: seq<Entry>, visited: set<Square>,
                 depth: map<Square, nat>, via: map<Square, seq<Square>>,
                 paths: seq<seq<Square>>, found: Option<nat>, paths': seq<seq<Square>>, found': Option<nat>)
    requires Searching(start, goal, n, queue, visited, depth, via, paths, found)
    requires |queue| > 0 && queue[0].current == goal
    requires found' == (if found.None? then Some(|queue[0].path|) else found)
    requires paths' == (if |queue[0].path| == found'.value then paths + [queue[0].path] else paths)
    ensures Searching(start, goal, n, queue[1..], visited, depth, via, paths', found')
  {
    StepGoal(start, goal, n, queue, visited, depth, paths, found, paths', found');
    GoalLineage(paths, queue, visited, via, paths');
    GoalComplete(start, goal, n, queue, paths, found, visited, depth, via, paths', found');
  }

  /** Discarding a walk to an expanded square keeps the loop invariant. */
  lemma SkipStep(start: Square, goal: Square, n: int, queue: seq<Entry>, visited: set<Square>,
                 depth: map<Square, nat>, via: map<Square, seq<Square>>,
                 paths: seq<seq<Square>>, found: Option<nat>)
    requires Searching(start, goal, n, queue, visited, depth, via, paths, found)
    requires |queue| > 0 && queue[0].current != goal && queue[0].current in visited
    ensures Searching(start, goal, n, queue[1..], visited, depth, via, paths, found)
  {
    StepSkip(start, goal, n, queue, visited, depth, paths, found);
    SkipLineage(paths, queue, visited, via);
    assert EntryOk(queue[0], start, n, visited);
    SkipComplete(start, goal, n, queue, paths, found, visited, depth, via);
  }

  /** Expanding a fresh square that is not the goal keeps the loop
      invariant, and the square lies on the board or is start. */
  lemma ExpandStep(start: Square, goal: Square, n: int, queue: seq<Entry>, visited: set<Square>,
                   depth: map<Square, nat>, via: map<Square, seq<Square>>,
                   paths: seq<seq<Square>>, found: Option<nat>,
                   path: seq<Square>, c: Square, moves: seq<Square>, added: seq<Entry>)
    requires Searching(start, goal, n, queue, visited, depth, via, paths, found)
    requires |queue| > 0 && queue[0] == Entry(path, c)
    requires c != goal && c !in visited
    requires MovesOf(moves, c, n) && AddedFrom(added, path, moves, visited + {c})
    requires forall i, j :: 0 <= i < j < |added| ==> added[i].current != added[j].current
    ensures Searching(start, goal, n, queue[1..] + added, visited + {c}, depth[c := |path|], via[c := path], paths, found)
  {
    assert EntryOk(queue[0], start, n, visited);
    StepExpand(start, goal, n, queue, visited, depth, paths, found, path, c, moves, added);
    ExpandLineage(paths, queue, visited, via, path, c, added);
    ExpandComplete(start, goal, n, queue, paths, found, visited, depth, via, path, c, moves, added);
  }

  /** Every square the search expands is start or a square of the board. */
  lemma OnBoard(start: Square, goal: Square, n: int, queue: seq<Entry>, visited: set<Square>,
                depth: map<Square, nat>, paths: seq<seq<Square>>, found: Option<nat>)
    requires Inv(start, goal, n, queue, visited, depth, paths, found)
    requires |queue| > 0
    ensures queue[0].current in Cells(n) + {start}
  {
    assert EntryOk(queue[0], start, n, visited);
    WalkOnBoard(queue[0].path, start, n, |queue[0].path| - 1);
  }

  /** All knight walks the search collects from start to goal on an n x n
      board. They are simple walks of one common, minimal length; there are
      none exactly when goal cannot be reached; and when start is goal the
      answer is the single one-square walk. Exactly one path is returned for
      each square from which some shortest walk makes its last move. */
  method ShortestPaths(start: Square, goal: Square, n: int) returns (paths: seq<seq<Square>>)
    ensures forall i :: 0 <= i < |paths| ==> IsWalk(paths[i], start, n) && Last(paths[i]) == goal
    ensures forall i :: 0 <= i < |paths| ==> Distinct(paths[i])
    ensures forall i, j :: 0 <= i < j < |paths| ==> |paths[i]| == |paths[j]|
    ensures forall i :: 0 <= i < |paths| ==> NoShorterWalk(|paths[i]|, start, goal, n)
    ensures paths == [] <==> !Reachable(start, goal, n)
    ensures start == goal ==> paths == [[start]]
    ensures forall i, j :: 0 <= i < j < |paths| ==> |paths[i]| >= 2 && Penult(paths[i]) != Penult(paths[j])
    ensures forall q :: IsWalk(q, start, n) && Last(q) == goal && |q| >= 2 && NoShorterWalk(|q|, start, goal, n) ==>
      exists i :: 0 <= i < |paths| && |paths[i]| >= 2 && Penult(paths[i]) == Penult(q)
  {
    var queue := [Entry([start], start)];
    var visited: set<Square> := {};
    paths := [];
    var found: Option<nat> := None;
    ghost var depth: map<Square, nat> := map[];
    ghost var via: map<Square, seq<Square>> := map[];
    InitInv(start, goal, n);
    InitLineage(start);
    InitComplete(start, goal, n);

    while queue != []
      invariant Searching(start, goal, n, queue, visited, depth, via, paths, found)
      decreases (Cells(n) + {start}) - visited, |queue|
    {
      ghost var queue0, paths0, found0 := queue, paths, found;
      var path := queue[0].path;
      var current := queue[0].current;
      queue := queue[1..];

      if current == goal {
        if found.None? {
          found := Some(|path|);
        }
        if |path| == found.value {
          paths := paths + [path];
        }
        GoalStep(start, goal, n, queue0, visited, depth, via, paths0, found0, paths, found);
        continue;
      }

      if current in visited {
        SkipStep(start, goal, n, queue0, visited, depth, via, paths, found);
        continue;
      }

      OnBoard(start, goal, n, queue0, visited, depth, paths, found);
      ghost var visited0 := visited;
      visited := visited + {current};
      var moves, added := Expand(path, current, n, visited);
      queue := queue + added;
      ExpandStep(start, goal, n, queue0, visited0, depth, via, paths, found, path, current, moves, added);
      depth := depth[current := |path|];
      via := via[current := path];
    }

    Conclude(start, goal, n, visited, depth, via, paths, found);
  }

  /** What the search promises once its queue is empty, from the three loop
      invariants. */
  lemma Conclude(start: Square, goal: Square, n: int, visited: set<Square>, depth: map<Square, nat>,
                 via: map<Square, seq<Square>>, paths: seq<seq<Square>>, found: Option<nat>)
    requires Inv(start, goal, n, [], visited, depth, paths, found)
    requires Lineage(paths, [], visited, via)
    requires Complete(start, goal, n, [], paths, found, visited, depth, via)
    ensures forall i :: 0 <= i < |paths| ==> IsWalk(paths[i], start, n) && Last(paths[i]) == goal
    ensures forall i :: 0 <= i < |paths| ==> Distinct(paths[i])
    ensures forall i, j :: 0 <= i < j < |paths| ==> |paths[i]| == |paths[j]|
    ensures forall i :: 0 <= i < |paths| ==> NoShorterWalk(|paths[i]|, start, goal, n)
    ensures paths == [] <==> !Reachable(start, goal, n)
    ensures start == goal ==> paths == [[start]]
    ensures forall i, j :: 0 <= i < j < |paths| ==> |paths[i]| >= 2 && Penult(paths[i]) != Penult(paths[j])
    ensures forall q :: IsWalk(q, start, n) && Last(q) == goal && |q| >= 2 && NoShorterWalk(|q|, start, goal, n) ==>
      exists i :: 0 <= i < |paths| && |paths[i]| >= 2 && Penult(paths[i]) == Penult(q)
  {
    Finish(start, goal, n, visited, depth, paths, found);
    if |paths| > 1 {
      DistinctPredecessors(paths, visited, via, goal);
    }
    AllPredecessors(start, goal, n, paths, found, visited, depth, via);
  }
}

=== FILE: walks.dfy ===
/**
 Knight walks: sequences of squares that start at a given square and follow
 legal knight moves on the board. These are the paths the search reports,
 and the reference against which its results are judged.
 */
module Walks {
  import opened Board

  function Last(p: seq<Square>): Square
    requires |p| > 0
  {
    p[|p| - 1]
  }

  /** The second-to-last square of p: the square its last move left. */
  function Penult(p: seq<Square>): Square
    requires |p| >= 2
  {
    p[|p| - 2]
  }

  /** p begins at start, and every later square is on the n x n board and a
      knight move away from the square before it. */
  predicate IsWalk(p: seq<Square>, start: Square, n: int)
  {
    && |p| > 0
    && p[0] == start
    && forall k :: 0 < k < |p| ==> IsValidMove(p[k].0, p[k].1, n) && IsKnightStep(p[k - 1], p[k])
  }

  /** No square occurs twice in p. */
  predicate Distinct(p: seq<Square>)
  {
    forall i, j :: 0 <= i < j < |p| ==> p[i] != p[j]
  }

  /** goal occurs in p at most as its last square. */
  predicate AvoidsBefore(p: seq<Square>, goal: Square)
  {
    forall k :: 0 <= k < |p| - 1 ==> p[k] != goal
  }

  /** Some knight walk leads from start to goal. */
  ghost predicate Reachable(start: Square, goal: Square, n: int)
  {
    exists p :: IsWalk(p, start, n) && Last(p) == goal
  }

  /** No knight walk from start to goal has fewer than len squares. */
  ghost predicate NoShorterWalk(len: int, start: Square, goal: Square, n: int)
  {
    forall p :: IsWalk(p, start, n) && Last(p) == goal ==> len <= |p|
  }

  /** A non-empty prefix of a walk is a walk. */
  lemma WalkPrefix(p: seq<Square>, start: Square, n: int, j: nat)
    requires IsWalk(p, start, n)
    requires 0 < j <= |p|
    ensures IsWalk(p[..j], start, n)
    ensures Last(p[..j]) == p[j - 1]
  {
  }

  /** A walk extended by one on-board knight move is a walk. */
  lemma WalkExtend(p: seq<Square>, start: Square, n: int, m: Square)
    requires IsWalk(p, start, n)
    requires IsValidMove(m.0, m.1, n) && IsKnightStep(Last(p), m)
    ensures IsWalk(p + [m], start, n)
    ensures Last(p + [m]) == m
  {
  }

  /** Every square of a walk is its start or a square of the board. */
  lemma WalkOnBoard(p: seq<Square>, start: Square, n: int, k: nat)
    requires IsWalk(p, start, n)
    requires k < |p|
    ensures p[k] == start || p[k] in Cells(n)
  {
    if k > 0 {
      ValidMoveIsCell(p[k].0, p[k].1, n);
    }
  }

  /** Cutting a walk to goal at the first occurrence of goal gives a walk to
      goal, no longer, that does not pass through goal earlier. */
  lemma {:induction false} TrimAtGoal(p: seq<Square>, start: Square, goal: Square, n: int) returns (q: seq<Square>)
    requires IsWalk(p, start, n) && Last(p) == goal
    ensures IsWalk(q, start, n) && Last(q) == goal
    ensures AvoidsBefore(q, goal)
    ensures |q| <= |p|
  {
    var j := 0;
    while p[j] != goal
      invariant 0 <= j < |p|
      invariant forall k :: 0 <= k < j ==> p[k] != goal
      decreases |p| - j
    {
      j := j + 1;
    }
    WalkPrefix(p, start, n, j + 1);
    q := p[..j + 1];
  }

  /** On a board with no squares, nothing is reachable but the start. */
  lemma EmptyBoardUnreachable(start: Square, goal: Square, n: int)
    requires n <= 0 && start != goal
    ensures !Reachable(start, goal, n)
  {
  }
}
